=== FILE: README.md ===
# consulting-agent `main.py` in Dafny

The program is a command-line sales assistant. It asks for a customer's
website and then runs four language-model agents in a fixed order:

1. info extractor;
2. pain-point analyzer;
3. industry-challenges identifier;
4. solution reporter.

Before the fourth agent it asks which company the operator is selling for.
Each agent replies in free text. `clean_and_parse_json` turns a reply into a
JSON value:

- it deletes Markdown code fences;
- it strips surrounding whitespace;
- it takes the greedy `(\{.*\})` span and hands it to `json.loads`.

`main` collects the results in the ordered dict `combined_output` and writes
it to `combined_analysis.json`.

This project models two pieces of that logic.

**The extractor** (`text.dfy`, `extractor.dfy`):

- `str.replace` is a left-to-right, non-overlapping `ReplaceAll`.
- `str.strip` uses the 29 code points for which Python's `str.isspace` holds.
- The DOTALL regex search is the span from the first `{` to the last `}`.
- `json.loads` is a parameter `parse: string -> Option<Json>`, with `None` standing for a `JSONDecodeError`.

**The run of `main`** (`pipeline.dfy`, `ordered_dict.dfy`, `json.dfy`):

- `RunMain` is an imperative method over the ordered dict `combined_output`, written as an association list.
- The outside world is given as parameters:
  - `run` answers each `client.run` call with the content of the last message, or raises;
  - the two `input()` calls return a line or raise;
  - `extract` is the reply decoder, which `MainExtractor` ties to `clean_and_parse_json`.
- The `try`/`except Exception` is a labelled block that a caught exception leaves with `break`.
- The file writes are returned as the sequence of documents written.
- `RunMain` is proved equal to the specification function `Expected`. The lemmas state the stage and save policy on `Expected`.

The model follows the code where the code and its stated intent differ. The
comment before the final save says that whatever has been gathered is saved
even after errors. The `return` statements at main.py:252, 268 and 307 are
inside the `try`, however, so they leave `main` before that save, and nothing
is written on those paths. `FalsyResultReturnsWithoutSaving` states exactly
this.

Running the extractor again on a serialised result gives the same value
back only when no string in it holds "```". `json.dumps` does not escape
backticks, and main.py:209 deletes every "```", inside JSON strings too.
For example, the serialised dict `{"a": "```"}` reaches the decoder as
`{"a": ""}`. `SerialisedObjectReparses` states the round trip with its
condition, and `TickedValueLosesFence` shows this counter-case.

## Model

| member | source | states |
|---|---|---|
| Text.ReplaceKeepsHead | main.py:209 | a string whose first character cannot start the pattern keeps that first character after replacement |
| Text.ReplaceDeletesOnly | main.py:209 | deleting a pattern introduces no character that was not in the input |
| Text.ReplaceAll | main.py:209 | (definition) `str.replace`: scan left to right, replace each occurrence and resume after it, so occurrences never overlap |
| Text.ReplaceSkipsPrefix | main.py:209 | a prefix that holds no occurrence of the pattern and ends with a character foreign to it passes through replacement unchanged |
| Text.ReplaceSplits | main.py:209 | when the second part starts with a character foreign to the pattern, replacing a concatenation replaces the two parts independently |
| Text.IsSpace | main.py:209 | (definition) `str.isspace` on one character: the 29 code points `strip()` removes by default |
| Text.LeadingSpaces | main.py:209 | the leading whitespace run: all whitespace, and followed by a non-whitespace character or the end |
| Text.TrailingSpaces | main.py:209 | the trailing whitespace run: all whitespace, and preceded by a non-whitespace character or the start |
| Text.Strip | main.py:209 | `strip()` yields an infix of the input, after its leading whitespace, followed only by whitespace, and neither starting nor ending with whitespace |
| Text.StripKeepsCore | main.py:209 | stripping never cuts into a stretch that starts and ends with non-whitespace |
| Text.StripAvoids | main.py:209 | stripping keeps only characters of the input and creates no new occurrence of a pattern |
| Text.FindFirst | main.py:210 | index of the first occurrence of a character, or `None` when it does not occur |
| Text.FindLast | main.py:210 | index of the last occurrence of a character, or `None` when it does not occur |
| Extractor.FenceRemovalIsComplete | main.py:209 | after every "```" is deleted, the text contains no "```" |
| Extractor.Unfence | main.py:209 | both fence deletions keep only characters of the raw reply |
| Extractor.CleanText | main.py:209 | the cleaned text holds no "```", neither starts nor ends with whitespace, and uses only characters of the raw reply |
| Extractor.FindJsonSpan | main.py:210-213 | the regex matches exactly when some `{` has a `}` after it; the match runs from the first `{` to the last `}` |
| Extractor.GreedySpanIsBracePair | main.py:210-219 | a greedy span can only exist when a `{` is followed by a `}` |
| Extractor.GreedySpanIsUnique | main.py:210-213 | there is at most one greedy span: the matched group is determined by the text |
| Extractor.CleanAndParse | main.py:207-230 | `clean_and_parse_json` returns `None` when the cleaned text has no `{`…`}` pair, and otherwise exactly the decoder's result on the greedy span, with a decoding failure giving `None` |
| Extractor.RemovalKeepsObject | main.py:209 | deleting a pattern without `{` and `}` around an object that starts with `{`, ends with `}` and holds no occurrence of the pattern leaves the object intact between the two processed sides |
| Extractor.UnfenceKeepsObject | main.py:209 | both fence deletions leave an object (from `{` to `}`) without "```" intact between the processed prose; a lone backtick inside the object is kept |
| Extractor.StripKeepsObject | main.py:209 | `strip()` around an object that starts with `{` and ends with `}` cuts only the text outside the object |
| Extractor.InfixKeepsGreedySpan | main.py:210-213 | cutting text outside an object, with no `{` before it and no `}` after it, leaves the object as the greedy span |
| Extractor.CleanTextAroundObject | main.py:209 | cleaning prose plus an object without "```" plus prose means stripping the unfenced prose around the intact object, and unfencing adds no `{` before it and no `}` after it |
| Extractor.StrippedObjectIsGreedySpan | main.py:209-213 | after stripping, such an object is the greedy span of the text |
| Extractor.CleanedReplyHoldsObject | main.py:209-213 | after cleaning, an object without "```" that has no `{` before it and no `}` after it is the greedy span of the cleaned text |
| Extractor.ExtractsEmbeddedObject | main.py:207-224 | a reply holding one object (from `{` to `}`, without "```" but possibly with single backticks), with prose or fences that have no `{` before it and no `}` after it, yields exactly the decoding of that object |
| Extractor.SerialisedObjectReparses | main.py:207-224 | a text from `{` to `}` without "```", such as `json.dumps` of a dict whose strings hold no "```", reaches the decoder whole: extracting it again gives the decoder's result on the text itself |
| Extractor.TickedValueUnfenced | main.py:209 | the fence deletions also remove a "```" inside a JSON string: `{"a": "```"}` becomes `{"a": ""}` |
| Extractor.TickedValueLosesFence | main.py:207-224 | re-extracting the serialised dict `{"a": "```"}` decodes `{"a": ""}`, so the round trip fails for strings holding "```" |
| Extractor.NoOpeningBraceYieldsNone | main.py:216-219 | a reply without `{` yields `None` |
| Extractor.FencedReplyExample | main.py:207-224 | a fenced reply with prose around it yields the decoding of the fenced object |
| Extractor.RefusalExample | main.py:216-219 | a refusal without braces yields `None` |
| OrderedDict.Keys | main.py:310-311 | the keys of the dict in insertion order, the order in which `json.dump` writes them |
| OrderedDict.Put | main.py:249-304 | (definition) `combined_output[k] = v` (lines 249, 265, 281, 286, 291, 304): an existing key keeps its place and takes the new value, a new key goes to the end |
| OrderedDict.PutAppendsNewKey | main.py:249 | `d[k] = v` with a new key appends the entry at the end |
| OrderedDict.UniqueKeys | main.py:249-304 | (definition) no key appears twice in the dict |
| OrderedDict.PutKeys | main.py:249-304 | after `d[k] = v` the keys are those of `d` plus `k`, and no others |
| OrderedDict.PutKeepsKeysUnique | main.py:249-304 | `d[k] = v` keeps every key at most once |
| OrderedDict.PutThenGet | main.py:249 | after `d[k] = v`, `d[k]` is `v` and every other key keeps its value |
| Json.Truthy | main.py:248-303 | (definition) Python truthiness of a decoded value, as `if company_info:` and the like test it (lines 248, 264, 280, 303): `None`, `False`, zero and empty strings, lists and dicts are false |
| Pipeline.Usable | main.py:248-303 | (definition) the stage test (lines 248, 264, 280, 303): the extractor returned a value and that value is truthy |
| Pipeline.KeyNamesDistinct | main.py:249-304 | distinct stage keys have distinct names, so the dict keyed by stage has the same keys as the one `main` builds |
| Pipeline.StageEntriesFollowKeyOrder | main.py:249-304 | a document of stage results has the first keys of the stage order as its keys |
| Pipeline.StageEntriesPrefix | main.py:291-297 | the document of the first `n` stage results is a prefix of any later one |
| Pipeline.AssignNextStage | main.py:265 | storing the next stage's result under its key appends it to the document of earlier results |
| Pipeline.RunMain | main.py:232-322 | the method's exit, final `combined_output`, files written and agent calls are those of the stage-by-stage specification `Expected` |
| Pipeline.StageResultsAtExit | main.py:248-304 | at the end, `combined_output` holds one result per completed stage under that stage's key; the fourth agent received the first four |
| Pipeline.KeysFollowStageOrder | main.py:249-304 | keys are only added, in the order `company_info`, `pain_points`, `industry_challenges`, `selling_company`, `solutions`; one agent call per stage begun |
| Pipeline.StoredValuesComeFromReplies | main.py:247-304 | each stored value is the truthy decoded reply of its agent, except that the third may be the placeholder; `selling_company` is the typed line |
| Pipeline.SavesFollowExit | main.py:236-322 | of the exceptions modelled (those `except Exception` catches), only the URL prompt's leaves `main`, with nothing gathered or called; a `return` writes nothing, a caught exception writes once and a complete run writes twice |
| Pipeline.AgentsRunInOrder | main.py:244-299 | agents are called in pipeline order; every call but the last followed a returned call with a usable result, except at the third stage |
| Pipeline.RequestsCarryEarlierResults | main.py:256-298 | each agent receives the earlier results; the fourth receives `combined_output` with its first four keys |
| Pipeline.FalsyResultReturnsWithoutSaving | main.py:248-307 | a falsy result at stage 1, 2 or 4 returns at once: no later agent, only the earlier keys, no file written |
| Pipeline.FalsyChallengesAreTolerated | main.py:280-291 | a falsy third result stores `{"error": "Failed to parse"}` and the run goes on to the selling-company prompt and the fourth agent |
| Pipeline.RaisingCallSavesOnce | main.py:314-321 | an exception from an agent call is caught: no later agent runs, and the document gathered so far is written exactly once |
| Pipeline.RaisingSellingPromptSavesOnce | main.py:289-321 | an exception from the selling-company prompt is caught after stage 3, and the three results are written once |
| Pipeline.SuccessSavesCompleteDocumentTwice | main.py:303-321 | a truthy fourth result completes the run, and the document with all five keys is written twice |
| Pipeline.MainExtractorFindsEmbeddedObject | main.py:207-224 | with `main`'s decoder, a reply that wraps one object (from `{` to `}`, without "```") in prose or fences with no `{` before it and no `}` after it yields that object's decoding |
| Pipeline.BracelessFirstReplyEndsRun | main.py:244-252 | with `main`'s decoder, a first reply without `{` ends the run after the first agent, with an empty `combined_output` and no file written |
| Pipeline.WrappedRepliesCompleteRun | main.py:244-321 | with `main`'s decoder, agents that all answer with the same wrapped object decoding to a truthy value complete the run: the value under every agent's key, the typed selling company, and the five-key document written twice |

## Left out

- The agent definitions (main.py:47-205) are configuration: instructions, model names and tool lists. Only their identity and call order are modelled.
- `tavily_search` (main.py:32-44) and the Swarm client are network services. Each `client.run` call is a given outcome: the text of the last message, or an exception.
- Swarm response shapes are folded into the raising outcome, because they all end in `except Exception`. This covers an empty message list, a missing `"content"`, and a `None` content, which makes `replace` raise.
- Environment loading and the API-key check (main.py:20-27) are start-up glue outside `main`.
- `logging` calls are left out: they do not affect results.
- `print` calls (main.py:214, 217, 226 and in `main`) are left out. One could raise `UnicodeEncodeError` when standard output cannot encode a character of a reply; inside `main`'s `try` that exception would be caught like any other.
- `input()` (main.py:236, 289) is a given outcome: a line, or an exception such as `EOFError`.
- The files are not modelled as files. Each write is the document it would contain.
- A failure of `json.dump` while writing inside the `try` (main.py:310-311) is not modelled. The model treats that write as always succeeding.
- `json.loads` and `json.dumps` are foreign library code:
  - the decoder is a parameter;
  - serialised message bodies carry the value itself, not its text.
- The wording of prompts is kept in `PromptText`. It is not part of any contract.
- Pipeline.SavesFollowExit: `Raises` stands only for exceptions derived from `Exception`, which main.py:314 catches. A `KeyboardInterrupt` or `SystemExit` during an agent call or the selling-company prompt leaves `main` without any write, and so does a failure of the final write at main.py:320-321. Neither is modelled, so neither `RunMain` nor `Expected` has such an exit.
- Extractor.CleanAndParse: `json.loads` exceptions other than `JSONDecodeError` are not modelled. Examples are a `RecursionError` on deeply nested input and a plain `ValueError` for an integer longer than the interpreter's digit limit (4300 by default). main.py:225 catches only `JSONDecodeError`, so these would escape `clean_and_parse_json` and reach `main`'s `except`. The decoder here reports every failure as `None`.
- `Json.Number` is a `real`. Floating-point rounding and NaN, which is truthy in Python, are not modelled.
- The `__main__` wrapper (main.py:324-329) only re-catches and logs.

=== FILE: extractor.dfy ===
/**
 * `clean_and_parse_json` (main.py): strip Markdown code fences and
 * surrounding whitespace from a model's reply, locate the greedy
 * `(\{.*\})` span and hand it to the JSON decoder. In this model every
 * failure yields `None`: the decoder is taken to report each failure as
 * `None`, and output and logging, which could raise, are not modelled.
 */
module Extractor {
  import opened Wrappers
  import opened Json
  import opened Text

  const JsonFence := "```json"
  const Fence := "```"

  /**
   * Putting one character in front of a fence-free string keeps it
   * fence-free unless that character is a backtick and the string starts
   * with two backticks.
   */
  lemma PrependAvoidsFence(c: char, t: string)
    requires !Occurs(t, Fence)
    requires c == '`' ==> |t| < 2 || t[0] != '`' || t[1] != '`'
    ensures !Occurs([c] + t, Fence)
  {
    var r := [c] + t;
    if |r| >= 3 {
      assert r[..3][0] == r[0] && r[..3][1] == r[1] && r[..3][2] == r[2];
    }
    assert !OccursAt(r, Fence, 0);
    forall i: nat | 0 < i ensures !OccursAt(r, Fence, i) {
      if i + 3 <= |r| {
        assert r[i..i + 3] == t[i - 1..i - 1 + 3];
        assert i - 1 <= |t| && !OccursAt(t, Fence, i - 1);
      }
    }
  }

  /**
   * When `s` starts with a backtick but not with a fence, deleting the
   * fences from `s[1..]` never leaves two backticks at its front: either
   * `s[1]` is not a backtick and stays first, or `s[1]` is one and `s[2]`,
   * not a backtick, stays second.
   */
  lemma RemovalAfterTick(s: string)
    requires |s| >= 3 && s[0] == '`' && s[..3] != Fence
    ensures var t := ReplaceAll(s[1..], Fence, "");
      |t| < 2 || t[0] != '`' || t[1] != '`'
  {
    var t := ReplaceAll(s[1..], Fence, "");
    if s[1] != '`' {
      ReplaceKeepsHead(s[1..], Fence, "");
    } else {
      assert s[2] != '`';
      if |s[1..]| >= 3 {
        assert s[1..][..3][1] == s[2];
        assert t == [s[1]] + ReplaceAll(s[2..], Fence, "");
        ReplaceKeepsHead(s[2..], Fence, "");
      }
    }
  }

  /**
   * Deleting every "```" leaves none behind: the scan resumes right after a
   * deleted fence, and a backtick kept in front of the rest cannot complete
   * a new fence because the kept text never starts with two backticks there.
   */
  lemma {:induction false} FenceRemovalIsComplete(s: string)
    ensures !Occurs(ReplaceAll(s, Fence, ""), Fence)
    decreases |s|
  {
    if |s| < 3 {
      assert ReplaceAll(s, Fence, "") == s;
    } else if s[..3] == Fence {
      assert ReplaceAll(s, Fence, "") == ReplaceAll(s[3..], Fence, "");
      FenceRemovalIsComplete(s[3..]);
    } else {
      FenceRemovalIsComplete(s[1..]);
      assert ReplaceAll(s, Fence, "") == [s[0]] + ReplaceAll(s[1..], Fence, "");
      if s[0] == '`' {
        RemovalAfterTick(s);
      }
      PrependAvoidsFence(s[0], ReplaceAll(s[1..], Fence, ""));
    }
  }

  /** main.py:209 up to the `strip()`: both fence removals. */
  function Unfence(raw: string): (r: string)
    ensures forall c :: c in r ==> c in raw
  {
    ReplaceDeletesOnly(raw, JsonFence);
    ReplaceDeletesOnly(ReplaceAll(raw, JsonFence, ""), Fence);
    ReplaceAll(ReplaceAll(raw, JsonFence, ""), Fence, "")
  }

  /**
   * The text main.py:209 produces: fence-free, not starting or ending with
   * whitespace, and made only of characters of the raw reply.
   */
  function CleanText(raw: string): (r: string)
    ensures !Occurs(r, Fence)
    ensures r == [] || (!IsSpace(r[0]) && !IsSpace(r[|r| - 1]))
    ensures forall c :: c in r ==> c in raw
  {
    FenceRemovalIsComplete(ReplaceAll(raw, JsonFence, ""));
    StripAvoids(Unfence(raw), Fence);
    Strip(Unfence(raw))
  }

  /** Some `{` has a `}` somewhere after it: exactly when `(\{.*\})` matches. */
  predicate HasBracePair(s: string) {
    exists i, j | 0 <= i < j < |s| :: s[i] == '{' && s[j] == '}'
  }

  /**
   * `s[start..end]` is the match of the greedy `(\{.*\})` under DOTALL:
   * it begins at the leftmost `{` (no `{` before it) and ends at the
   * rightmost `}` (no `}` after it).
   */
  predicate IsGreedySpan(s: string, start: nat, end: nat) {
    start + 2 <= end <= |s| && s[start] == '{' && s[end - 1] == '}'
    && (forall k :: 0 <= k < start ==> s[k] != '{')
    && (forall k :: end <= k < |s| ==> s[k] != '}')
  }

  /** The bounds of a located span, `json_match.group(1)` being `s[start..end]`. */
  datatype Span = Span(start: nat, end: nat)

  /** `re.search(r'(\{.*\})', s, re.DOTALL)` (main.py:210). */
  function FindJsonSpan(s: string): (r: Option<Span>)
    ensures r.Some? <==> HasBracePair(s)
    ensures r.Some? ==> IsGreedySpan(s, r.value.start, r.value.end)
  {
    match (FindFirst(s, '{'), FindLast(s, '}'))
    case (Some(i), Some(j)) =>
      if i < j then Some(Span(i, j + 1)) else None
    case _ => None
  }

  /** A greedy span is made of a `{` and a later `}`. */
  lemma GreedySpanIsBracePair(s: string)
    ensures forall i: nat, j: nat :: IsGreedySpan(s, i, j) ==> HasBracePair(s)
  {
    forall i: nat, j: nat | IsGreedySpan(s, i, j) ensures HasBracePair(s) {
      assert s[i] == '{' && s[j - 1] == '}';
    }
  }

  /** The greedy span, when there is one, is unique. */
  lemma GreedySpanIsUnique(s: string, start: nat, end: nat, start': nat, end': nat)
    requires IsGreedySpan(s, start, end) && IsGreedySpan(s, start', end')
    ensures start == start' && end == end'
  {
  }

  /**
   * `clean_and_parse_json` (main.py:207-230), with `json.loads` as the
   * parameter `parse` (`None` standing for a `JSONDecodeError`). With no
   * `{`...`}` span the result is `None`; otherwise it is whatever the
   * decoder makes of exactly the greedy span.
   */
  function CleanAndParse(raw: string, parse: string -> Option<Json>): (r: Option<Json>)
    ensures !HasBracePair(CleanText(raw)) ==> r == None
    ensures forall i: nat, j: nat :: IsGreedySpan(CleanText(raw), i, j) ==> r == parse(CleanText(raw)[i..j])
  {
    var clean := CleanText(raw);
    match FindJsonSpan(clean)
    case None =>
      GreedySpanIsBracePair(clean);
      None
    case Some(span) =>
      assert forall i: nat, j: nat :: IsGreedySpan(clean, i, j) ==> i == span.start && j == span.end;
      parse(clean[span.start..span.end])
  }

  /** A string without "```" has no "```json" either. */
  lemma FenceFreeAvoidsJsonFence(s: string)
    requires !Occurs(s, Fence)
    ensures !Occurs(s, JsonFence)
  {
    forall i: nat | OccursAt(s, JsonFence, i) ensures false {
      assert s[i..i + 3] == s[i..i + 7][..3];
      assert OccursAt(s, Fence, i);
    }
  }

  /** A string without backticks has no "```". */
  lemma TickFreeAvoidsFence(s: string)
    requires '`' !in s
    ensures !Occurs(s, Fence)
  {
    forall i: nat | i + 3 <= |s| ensures !OccursAt(s, Fence, i) {
      assert s[i..i + 3][0] == s[i];
    }
  }

  /**
   * Removing `pat` around an object free of `pat` leaves the object intact:
   * an occurrence reaching into the object from either side would contain
   * its opening `{` or its closing `}`, which `pat` lacks.
   */
  lemma RemovalKeepsObject(pre: string, obj: string, post: string, pat: string)
    requires pat != [] && '{' !in pat && '}' !in pat
    requires |obj| >= 2 && obj[0] == '{' && obj[|obj| - 1] == '}' && !Occurs(obj, pat)
    ensures ReplaceAll(pre + obj + post, pat, "")
         == ReplaceAll(pre, pat, "") + obj + ReplaceAll(post, pat, "")
  {
    assert pre + obj + post == pre + (obj + post);
    ReplaceSplits(pre, obj + post, pat, "");
    ReplaceSkipsPrefix(obj, post, pat, "");
  }

  /** Both fence removals leave an object without "```" intact. */
  lemma UnfenceKeepsObject(pre: string, obj: string, post: string)
    requires |obj| >= 2 && obj[0] == '{' && obj[|obj| - 1] == '}' && !Occurs(obj, Fence)
    ensures Unfence(pre + obj + post) == Unfence(pre) + obj + Unfence(post)
  {
    FenceFreeAvoidsJsonFence(obj);
    var pre1, post1 := ReplaceAll(pre, JsonFence, ""), ReplaceAll(post, JsonFence, "");
    RemovalKeepsObject(pre, obj, post, JsonFence);
    RemovalKeepsObject(pre1, obj, post1, Fence);
  }

  /**
   * Stripping text made of `pre`, an object and `post` cuts only inside
   * `pre` and `post`: the object, which neither starts nor ends with
   * whitespace, survives whole.
   */
  lemma StripKeepsObject(pre: string, obj: string, post: string)
    requires |obj| >= 2 && obj[0] == '{' && obj[|obj| - 1] == '}'
    ensures var s := pre + obj + post;
      var a := LeadingSpaces(s);
      a <= |pre| && |pre| + |obj| <= a + |Strip(s)| <= |s| && Strip(s) == s[a..a + |Strip(s)|]
  {
    var s := pre + obj + post;
    assert s[|pre|] == obj[0] && s[|pre| + |obj| - 1] == obj[|obj| - 1];
    StripKeepsCore(s, |pre|, |pre| + |obj|);
  }

  /**
   * Cutting `pre + obj + post` anywhere outside `obj` keeps `obj` as the
   * greedy span when `pre` has no `{` and `post` no `}`.
   */
  lemma InfixKeepsGreedySpan(pre: string, obj: string, post: string, a: nat, b: nat, c: string)
    requires |obj| >= 2 && obj[0] == '{' && obj[|obj| - 1] == '}'
    requires '{' !in pre && '}' !in post
    requires a <= |pre| && |pre| + |obj| <= b <= |pre + obj + post|
    requires c == (pre + obj + post)[a..b]
    ensures IsGreedySpan(c, |pre| - a, |pre| - a + |obj|) && c[|pre| - a..|pre| - a + |obj|] == obj
  {
    var s := pre + obj + post;
    var i, j := |pre| - a, |pre| - a + |obj|;
    forall k | 0 <= k < i ensures c[k] != '{' {
      assert c[k] == pre[a + k];
    }
    forall k | j <= k < |c| ensures c[k] != '}' {
      assert c[k] == post[a + k - |pre| - |obj|];
    }
    forall k | 0 <= k < |obj| ensures c[i + k] == obj[k] {
      assert c[i + k] == s[a + i + k];
    }
    assert c[i..j] == obj;
  }

  /** Cleaning a reply around an object amounts to stripping the unfenced parts around it. */
  lemma CleanTextAroundObject(pre: string, obj: string, post: string)
    requires |obj| >= 2 && obj[0] == '{' && obj[|obj| - 1] == '}' && !Occurs(obj, Fence)
    requires '{' !in pre && '}' !in post
    ensures CleanText(pre + obj + post) == Strip(Unfence(pre) + obj + Unfence(post))
    ensures '{' !in Unfence(pre) && '}' !in Unfence(post)
  {
    UnfenceKeepsObject(pre, obj, post);
  }

  /**
   * Stripping text made of `pre`, an object and `post`, where `pre` has no
   * `{` and `post` no `}`, leaves the object as the greedy span.
   */
  lemma StrippedObjectIsGreedySpan(pre: string, obj: string, post: string) returns (i: nat)
    requires |obj| >= 2 && obj[0] == '{' && obj[|obj| - 1] == '}'
    requires '{' !in pre && '}' !in post
    ensures IsGreedySpan(Strip(pre + obj + post), i, i + |obj|)
    ensures Strip(pre + obj + post)[i..i + |obj|] == obj
  {
    StripKeepsObject(pre, obj, post);
    var s := pre + obj + post;
    var a, c := LeadingSpaces(s), Strip(s);
    InfixKeepsGreedySpan(pre, obj, post, a, a + |c|, c);
    i := |pre| - a;
  }

  /**
   * Once a reply holding one object is cleaned, the object, with no `{`
   * before it and no `}` after it, is the greedy span of the cleaned text.
   */
  lemma CleanedReplyHoldsObject(pre: string, obj: string, post: string) returns (i: nat)
    requires |obj| >= 2 && obj[0] == '{' && obj[|obj| - 1] == '}' && !Occurs(obj, Fence)
    requires '{' !in pre && '}' !in post
    ensures IsGreedySpan(CleanText(pre + obj + post), i, i + |obj|)
    ensures CleanText(pre + obj + post)[i..i + |obj|] == obj
  {
    CleanTextAroundObject(pre, obj, post);
    i := StrippedObjectIsGreedySpan(Unfence(pre), obj, Unfence(post));
  }

  /**
   * A reply holding one object without "```", with arbitrary prose or
   * fences around it that contain no `{` before it and no `}` after it,
   * yields exactly what the decoder makes of that object.
   */
  lemma ExtractsEmbeddedObject(pre: string, obj: string, post: string, parse: string -> Option<Json>)
    requires |obj| >= 2 && obj[0] == '{' && obj[|obj| - 1] == '}' && !Occurs(obj, Fence)
    requires '{' !in pre && '}' !in post
    ensures CleanAndParse(pre + obj + post, parse) == parse(obj)
  {
    var i := CleanedReplyHoldsObject(pre, obj, post);
  }

  /**
   * Re-extracting serialised output: `json.dumps` of a dict is a text from
   * `{` to `}`, and when no string in it holds "```" the extractor hands
   * the whole text to the decoder unchanged.
   */
  lemma SerialisedObjectReparses(t: string, parse: string -> Option<Json>)
    requires |t| >= 2 && t[0] == '{' && t[|t| - 1] == '}' && !Occurs(t, Fence)
    ensures CleanAndParse(t, parse) == parse(t)
  {
    assert "" + t + "" == t;
    ExtractsEmbeddedObject("", t, "", parse);
  }

  const TickedHead := "{\"a\": \""
  const TickedTail := "\"}"

  /** Unfencing `{"a": "```"}` deletes the backticks inside the string. */
  lemma TickedValueUnfenced()
    ensures Unfence(TickedHead + Fence + TickedTail) == TickedHead + TickedTail
  {
    var s := TickedHead + Fence + TickedTail;
    assert s == TickedHead + (Fence + TickedTail);
    TickFreeAvoidsFence(TickedHead);
    FenceFreeAvoidsJsonFence(TickedHead);
    ReplaceSkipsPrefix(TickedHead, Fence + TickedTail, JsonFence, "");
    assert ReplaceAll(Fence + TickedTail, JsonFence, "") == Fence + TickedTail;
    ReplaceSkipsPrefix(TickedHead, Fence + TickedTail, Fence, "");
    assert ReplaceAll(Fence + TickedTail, Fence, "") == TickedTail;
  }

  /**
   * The serialised dict `{"a": "```"}` does not re-extract to itself:
   * main.py:209 deletes "```" inside the string value as well, so the
   * decoder receives `{"a": ""}`.
   */
  lemma TickedValueLosesFence(parse: string -> Option<Json>)
    ensures CleanAndParse("{\"a\": \"```\"}", parse) == parse("{\"a\": \"\"}")
  {
    var u := TickedHead + TickedTail;
    assert "{\"a\": \"```\"}" == TickedHead + Fence + TickedTail;
    assert "{\"a\": \"\"}" == u;
    TickedValueCleaned();
    assert IsGreedySpan(u, 0, |u|);
    assert u[0..|u|] == u;
  }

  /** Stripping leaves the unfenced `{"a": ""}` as it is. */
  lemma TickedValueCleaned()
    ensures CleanText(TickedHead + Fence + TickedTail) == TickedHead + TickedTail
  {
    TickedValueUnfenced();
    var u := TickedHead + TickedTail;
    StripKeepsCore(u, 0, |u|);
  }

  /** A reply without any `{` never yields an object. */
  lemma NoOpeningBraceYieldsNone(raw: string, parse: string -> Option<Json>)
    requires '{' !in raw
    ensures CleanAndParse(raw, parse) == None
  {
  }

  const ExampleProse := "Here is the data:\n```json\n"
  const ExampleObject := "{\"a\": 1}"
  const ExampleClosing := "\n```\nThanks"

  /** The parts of the example reply meet the conditions of `ExtractsEmbeddedObject`. */
  lemma ExamplePartsQualify()
    ensures |ExampleObject| >= 2 && ExampleObject[0] == '{' && ExampleObject[|ExampleObject| - 1] == '}'
    ensures '`' !in ExampleObject && '{' !in ExampleProse && '}' !in ExampleClosing
    ensures ExampleProse + ExampleObject + ExampleClosing == "Here is the data:\n```json\n{\"a\": 1}\n```\nThanks"
  {
  }

  /** The fenced example reply decodes the object inside the fence. */
  lemma FencedReplyExample(parse: string -> Option<Json>)
    ensures CleanAndParse("Here is the data:\n```json\n{\"a\": 1}\n```\nThanks", parse)
         == parse("{\"a\": 1}")
  {
    ExamplePartsQualify();
    TickFreeAvoidsFence(ExampleObject);
    ExtractsEmbeddedObject(ExampleProse, ExampleObject, ExampleClosing, parse);
  }

  /** A refusal without braces yields `None`. */
  lemma RefusalExample(parse: string -> Option<Json>)
    ensures CleanAndParse("Sorry, I cannot comply.", parse) == None
  {
    NoOpeningBraceYieldsNone("Sorry, I cannot comply.", parse);
  }
}

=== FILE: json.dfy ===
/**
 * The values `json.loads` can produce. The parser itself is not modelled:
 * the extractor takes it as a parameter.
 */
module Json {
  datatype Json =
    | Null
    | Bool(b: bool)
    | Number(n: real)
    | String(s: string)
    | Array(items: seq<Json>)
    | Object(members: seq<(string, Json)>)

  /** Python truthiness of a decoded value: `None`, `False`, zero and empty containers are false. */
  predicate Truthy(v: Json) {
    match v
    case Null => false
    case Bool(b) => b
    case Number(n) => n != 0.0
    case String(s) => s != []
    case Array(items) => items != []
    case Object(members) => members != []
  }
}

=== FILE: ordered_dict.dfy ===
/**
 * A Python `dict`: its entries in insertion order, each key at most once.
 * `combined_output` in main.py is one.
 */
module OrderedDict {
  import opened Wrappers

  type Dict<K, V> = seq<(K, V)>

  /** The keys in iteration order. */
  function Keys<K, V>(d: Dict<K, V>): (ks: seq<K>)
    ensures |ks| == |d| && forall i :: 0 <= i < |d| ==> ks[i] == d[i].0
  {
    if d == [] then [] else [d[0].0] + Keys(d[1..])
  }

  /** `d.get(k)`. */
  function Get<K(==), V>(d: Dict<K, V>, k: K): (r: Option<V>)
    ensures r.None? <==> k !in Keys(d)
    ensures r.Some? ==> exists i :: 0 <= i < |d| && d[i] == (k, r.value)
  {
    if d == [] then None
    else if d[0].0 == k then Some(d[0].1)
    else Get(d[1..], k)
  }

  /**
   * `d[k] = v`: an existing key keeps its position and takes the new value;
   * a new key goes to the end. Its properties are the lemmas below.
   */
  function Put<K(==), V>(d: Dict<K, V>, k: K, v: V): Dict<K, V> {
    if d == [] then [(k, v)]
    else if d[0].0 == k then [(k, v)] + d[1..]
    else [d[0]] + Put(d[1..], k, v)
  }

  /** No key appears twice, as in any Python `dict`. */
  predicate UniqueKeys<K(==), V>(d: Dict<K, V>) {
    forall i, j | 0 <= i < j < |d| :: d[i].0 != d[j].0
  }

  /** `d[k] = v` adds `k` to the keys and no other key. */
  lemma {:induction false} PutKeys<K, V>(d: Dict<K, V>, k: K, v: V)
    ensures forall k' :: k' in Keys(Put(d, k, v)) <==> k' == k || k' in Keys(d)
  {
    if d != [] && d[0].0 != k {
      PutKeys(d[1..], k, v);
      assert Keys(Put(d, k, v)) == [d[0].0] + Keys(Put(d[1..], k, v));
      assert Keys(d) == [d[0].0] + Keys(d[1..]);
    }
  }

  /** `d[k] = v` keeps every key at most once. */
  lemma {:induction false} PutKeepsKeysUnique<K, V>(d: Dict<K, V>, k: K, v: V)
    requires UniqueKeys(d)
    ensures UniqueKeys(Put(d, k, v))
  {
    if d != [] && d[0].0 != k {
      var rest := d[1..];
      assert UniqueKeys(rest) by {
        forall i, j | 0 <= i < j < |rest| ensures rest[i].0 != rest[j].0 {
          assert rest[i] == d[i + 1] && rest[j] == d[j + 1];
        }
      }
      PutKeepsKeysUnique(rest, k, v);
      PutKeys(rest, k, v);
      var p := Put(rest, k, v);
      assert d[0].0 !in Keys(rest) by {
        forall i | 0 <= i < |rest| ensures Keys(rest)[i] != d[0].0 {
          assert rest[i] == d[i + 1];
        }
      }
      forall j | 0 <= j < |p| ensures p[j].0 != d[0].0 {
        assert Keys(p)[j] == p[j].0;
      }
    } else if d != [] {
      forall i, j | 0 <= i < j < |d| ensures Put(d, k, v)[i].0 != Put(d, k, v)[j].0 {
        assert Put(d, k, v)[j] == d[j];
      }
    }
  }

  /** Storing under a new key appends the entry. */
  lemma {:induction false} PutAppendsNewKey<K, V>(d: Dict<K, V>, k: K, v: V)
    requires forall i | 0 <= i < |d| :: d[i].0 != k
    ensures Put(d, k, v) == d + [(k, v)]
  {
    if d != [] {
      PutAppendsNewKey(d[1..], k, v);
      assert d == [d[0]] + d[1..];
    }
  }

  /** After `d[k] = v`, `d[k]` is `v` and every other key keeps its value. */
  lemma {:induction false} PutThenGet<K, V>(d: Dict<K, V>, k: K, v: V)
    ensures Get(Put(d, k, v), k) == Some(v)
    ensures forall k' :: k' != k ==> Get(Put(d, k, v), k') == Get(d, k')
  {
    if d != [] && d[0].0 != k {
      PutThenGet(d[1..], k, v);
      assert Put(d, k, v)[1..] == Put(d[1..], k, v);
    }
  }
}

=== FILE: pipeline.dfy ===
/**
 * `main` (main.py:232-322): four agent stages run in order, each reply
 * passed through the extractor and accumulated in the ordered dict
 * `combined_output`, which is written to `combined_analysis.json`.
 *
 * The outside world is given as parameters: `run` answers each
 * `client.run` call with the content of the last message or raises, the
 * two `input()` calls return a line or raise, and `extract` is
 * `clean_and_parse_json`; where a decoder `parse` appears, it is `json.loads`.
 * File writes are recorded as the snapshots of `combined_output` written.
 */
module Pipeline {
  import opened Wrappers
  import opened Json
  import opened OrderedDict
  import Text
  import Extractor

  /** The four agents (main.py:47-205); their prompts and models are configuration. */
  datatype Agent = InfoExtractor | PainPointAnalyzer | IndustryChallengesIdentifier | SolutionReporter

  datatype Role = System | User

  /** The keys `combined_output` receives (main.py:249, 265, 281/286, 291, 304). */
  datatype Key = CompanyInfo | PainPoints | IndustryChallenges | SellingCompany | Solutions

  /** The key as it appears in `combined_analysis.json`. */
  function KeyName(k: Key): string {
    match k
    case CompanyInfo => "company_info"
    case PainPoints => "pain_points"
    case IndustryChallenges => "industry_challenges"
    case SellingCompany => "selling_company"
    case Solutions => "solutions"
  }

  /** Distinct keys have distinct names, so the dict keyed by `Key` has the keys of the file. */
  lemma KeyNamesDistinct(k: Key, k': Key)
    ensures KeyName(k) == KeyName(k') ==> k == k'
  {
  }

  /** The fixed texts of the messages sent to the agents (main.py:244-298). */
  datatype Prompt =
    | ExtractInfoFrom(url: string)
    | CompanyInfoContext
    | AnalyzePainPoints
    | InformationContext
    | IdentifyChallenges
    | RecommendSolutionsFrom(sellingCompany: string)

  /** The text of each message, as the f-strings and literals of main.py spell it. */
  function PromptText(p: Prompt): string {
    match p
    case ExtractInfoFrom(url) => "Extract detailed info from: " + url
    case CompanyInfoContext => "Use the following company info for context:"
    case AnalyzePainPoints =>
      "Analyze pain points and desired outcomes based on this information. "
      + "Use Tavily to search for additional relevant information."
    case InformationContext => "Use the following information for context:"
    case IdentifyChallenges =>
      "Identify industry challenges based on this information. "
      + "Use Tavily to search for additional relevant information. "
      + "Ensure your response is a valid JSON object."
    case RecommendSolutionsFrom(company) =>
      "Recommend solutions from " + company + " based on this information. "
      + "Use Tavily to search for specific solutions and case studies from " + company + "."
  }

  /** `combined_output`, and the two-entry dict sent to the third agent. */
  type Document = Dict<Key, Json>

  /** A message body: a fixed text, or `json.dumps` of a value or of a document. */
  datatype Content = Literal(prompt: Prompt) | Dumps(value: Json) | DumpsDocument(document: Document)

  datatype Message = Message(role: Role, content: Content)

  /** One `client.run(agent, messages)` call. */
  datatype Request = Request(agent: Agent, messages: seq<Message>)

  /** An external call either returns a value or raises an exception. */
  datatype Outcome<+T> = Returned(value: T) | Raises

  /** The points where the run can stop after the `try` is entered. */
  datatype Step = Stage(agent: Agent) | SellingCompanyPrompt

  /** How `main` ended. */
  datatype Exit =
    | UrlPromptRaised             // the first `input()` raised, outside the `try`
    | ReturnedAfter(agent: Agent) // a `return` inside the `try` after an unusable reply
    | Caught(step: Step)          // an exception at `step`, caught by `except Exception`
    | Completed                   // every stage produced a usable reply

  /** The order in which `combined_output` receives its keys. */
  const KeyOrder: seq<Key> := [CompanyInfo, PainPoints, IndustryChallenges, SellingCompany, Solutions]

  /** The order in which the agents run. */
  const AgentOrder: seq<Agent> := [InfoExtractor, PainPointAnalyzer, IndustryChallengesIdentifier, SolutionReporter]

  /** The value stored for an unusable industry-challenges reply (main.py:286). */
  const ParseFailed: Json := Object([("error", String("Failed to parse"))])

  function InfoRequest(url: string): Request {
    Request(InfoExtractor, [Message(User, Literal(ExtractInfoFrom(url)))])
  }

  function PainPointRequest(companyInfo: Json): Request {
    Request(PainPointAnalyzer, [
      Message(System, Literal(CompanyInfoContext)),
      Message(User, Dumps(companyInfo)),
      Message(User, Literal(AnalyzePainPoints))
    ])
  }

  function ChallengesRequest(companyInfo: Json, painPoints: Json): Request {
    Request(IndustryChallengesIdentifier, [
      Message(System, Literal(InformationContext)),
      Message(User, DumpsDocument([(CompanyInfo, companyInfo), (PainPoints, painPoints)])),
      Message(User, Literal(IdentifyChallenges))
    ])
  }

  function SolutionsRequest(combined: Document, sellingCompany: string): Request {
    Request(SolutionReporter, [
      Message(System, Literal(InformationContext)),
      Message(User, DumpsDocument(combined)),
      Message(User, Literal(RecommendSolutionsFrom(sellingCompany)))
    ])
  }

  /** `if x:` on what the extractor returned: `None` and falsy values are failures. */
  predicate Usable(v: Option<Json>) {
    v.Some? && Truthy(v.value)
  }

  /** What the extractor makes of a stage's reply; a raising call yields nothing. */
  function Decoded(reply: Outcome<string>, extract: string -> Option<Json>): Option<Json> {
    match reply
    case Returned(raw) => extract(raw)
    case Raises => None
  }

  /**
   * The extractor main.py uses: `clean_and_parse_json`, with `parse` standing
   * for `json.loads`.
   */
  function MainExtractor(parse: string -> Option<Json>): string -> Option<Json> {
    raw => Extractor.CleanAndParse(raw, parse)
  }

  /** How many keys `combined_output` holds when `step` starts. */
  function KeysBefore(step: Step): nat {
    match step
    case Stage(InfoExtractor) => 0
    case Stage(PainPointAnalyzer) => 1
    case Stage(IndustryChallengesIdentifier) => 2
    case SellingCompanyPrompt => 3
    case Stage(SolutionReporter) => 4
  }

  /** How many keys `combined_output` holds when the run ends. */
  function KeysAtExit(exit: Exit): nat {
    match exit
    case UrlPromptRaised => 0
    case ReturnedAfter(agent) => KeysBefore(Stage(agent))
    case Caught(step) => KeysBefore(step)
    case Completed => |KeyOrder|
  }

  /** The position of `agent` in `AgentOrder`. */
  function AgentIndex(agent: Agent): (i: nat)
    ensures i < |AgentOrder| && AgentOrder[i] == agent
  {
    match agent
    case InfoExtractor => 0
    case PainPointAnalyzer => 1
    case IndustryChallengesIdentifier => 2
    case SolutionReporter => 3
  }

  /** How many agents have been called when the run ends. */
  function CallsAtExit(exit: Exit): nat {
    match exit
    case UrlPromptRaised => 0
    case ReturnedAfter(agent) => AgentIndex(agent) + 1
    case Caught(Stage(agent)) => AgentIndex(agent) + 1
    case Caught(SellingCompanyPrompt) => 3
    case Completed => |AgentOrder|
  }

  /** The files written when the run ends with `combined` (main.py:310-311 and 320-321). */
  function SavesAtExit(exit: Exit, combined: Document): seq<Document> {
    match exit
    case Caught(_) => [combined]
    case Completed => [combined, combined]
    case _ => []
  }

  /** What one run of `main` did: how it ended, the final dict, the files written, the calls made. */
  datatype Trace = Trace(exit: Exit, combined: Document, saves: seq<Document>, requests: seq<Request>)

  /**
   * The document holding `values` as the results of the first stages: entry
   * `i` is the `i`-th key of `KeyOrder` with the `i`-th value.
   */
  function StageEntries(values: seq<Json>): (d: Document)
    requires |values| <= |KeyOrder|
  {
    seq(|values|, i requires 0 <= i < |values| => (KeyOrder[i], values[i]))
  }

  /** The keys of a document of stage results are the first keys of `KeyOrder`. */
  lemma StageEntriesFollowKeyOrder(values: seq<Json>)
    requires |values| <= |KeyOrder|
    ensures Keys(StageEntries(values)) == KeyOrder[..|values|]
  {
  }

  /** The document of the first `n` stage results is a prefix of a later one. */
  lemma StageEntriesPrefix(values: seq<Json>, n: nat)
    requires n <= |values| <= |KeyOrder|
    ensures StageEntries(values)[..n] == StageEntries(values[..n])
  {
  }

  /**
   * `combined_output[k] = v` with `k` the key of the next stage: the key is
   * not yet present, so the assignment appends the entry.
   */
  lemma AssignNextStage(values: seq<Json>, k: Key, v: Json, values': seq<Json>)
    requires |values| < |KeyOrder| && k == KeyOrder[|values|] && values' == values + [v]
    ensures Put(StageEntries(values), k, v) == StageEntries(values')
  {
    PutAppendsNewKey(StageEntries(values), k, v);
  }

  /**
   * The run main.py:232-322 performs on the given answers of the outside
   * world, stage by stage.
   */
  function Expected(url: Outcome<string>, sellingCompany: Outcome<string>,
                    run: Request -> Outcome<string>, extract: string -> Option<Json>): Trace
  {
    if url.Raises? then Trace(UrlPromptRaised, [], [], [])
    else
      var r1 := InfoRequest(url.value);
      if run(r1).Raises? then Trace(Caught(Stage(InfoExtractor)), [], [[]], [r1])
      else
        var companyInfo := extract(run(r1).value);
        if !Usable(companyInfo) then Trace(ReturnedAfter(InfoExtractor), [], [], [r1])
        else
          var d1 := StageEntries([companyInfo.value]);
          var r2 := PainPointRequest(companyInfo.value);
          if run(r2).Raises? then Trace(Caught(Stage(PainPointAnalyzer)), d1, [d1], [r1, r2])
          else
            var painPoints := extract(run(r2).value);
            if !Usable(painPoints) then Trace(ReturnedAfter(PainPointAnalyzer), d1, [], [r1, r2])
            else
              var d2 := StageEntries([companyInfo.value, painPoints.value]);
              var r3 := ChallengesRequest(companyInfo.value, painPoints.value);
              if run(r3).Raises? then Trace(Caught(Stage(IndustryChallengesIdentifier)), d2, [d2], [r1, r2, r3])
              else
                var challenges := extract(run(r3).value);
                var placed := if Usable(challenges) then challenges.value else ParseFailed;
                var d3 := StageEntries([companyInfo.value, painPoints.value, placed]);
                if sellingCompany.Raises? then Trace(Caught(SellingCompanyPrompt), d3, [d3], [r1, r2, r3])
                else
                  var d4 := StageEntries([companyInfo.value, painPoints.value, placed, String(sellingCompany.value)]);
                  var r4 := SolutionsRequest(d4, sellingCompany.value);
                  if run(r4).Raises? then Trace(Caught(Stage(SolutionReporter)), d4, [d4], [r1, r2, r3, r4])
                  else
                    var solutions := extract(run(r4).value);
                    if !Usable(solutions) then Trace(ReturnedAfter(SolutionReporter), d4, [], [r1, r2, r3, r4])
                    else
                      var d5 := StageEntries([companyInfo.value, painPoints.value, placed, String(sellingCompany.value), solutions.value]);
                      Trace(Completed, d5, [d5, d5], [r1, r2, r3, r4])
  }

  /**
   * `main()` (main.py:232-322). `url` and `sellingCompany` are the two
   * `input()` calls, `run` answers each `client.run` call with the content
   * of the reply's last message, and `extract` is `clean_and_parse_json`
   * (see `MainExtractor`). `requests` lists the `client.run` calls in
   * order and `saves` the contents written to `combined_analysis.json`.
   */
  method RunMain(url: Outcome<string>, sellingCompany: Outcome<string>,
                 run: Request -> Outcome<string>, extract: string -> Option<Json>)
    returns (exit: Exit, combined: Document, saves: seq<Document>, requests: seq<Request>)
    ensures Trace(exit, combined, saves, requests) == Expected(url, sellingCompany, run, extract)
  {
    combined, saves, requests := [], [], [];
    if url.Raises? {
      exit := UrlPromptRaised;
      return;
    }
    exit := Completed;
    label try: {
      // Stage 1: company profile; an unusable reply returns without saving.
      var infoRequest := InfoRequest(url.value);
      requests := requests + [infoRequest];
      var reply := run(infoRequest);
      if reply.Raises? {
        exit := Caught(Stage(InfoExtractor));
        break try;
      }
      var parsed := extract(reply.value);
      if !Usable(parsed) {
        exit := ReturnedAfter(InfoExtractor);
        return;
      }
      var companyInfo := parsed.value;
      assert combined == StageEntries([]);
      AssignNextStage([], CompanyInfo, companyInfo, [companyInfo]);
      combined := Put(combined, CompanyInfo, companyInfo);

      // Stage 2: pain points; an unusable reply returns without saving.
      var painRequest := PainPointRequest(companyInfo);
      requests := requests + [painRequest];
      assert requests == [infoRequest, painRequest];
      reply := run(painRequest);
      if reply.Raises? {
        exit := Caught(Stage(PainPointAnalyzer));
        break try;
      }
      parsed := extract(reply.value);
      if !Usable(parsed) {
        exit := ReturnedAfter(PainPointAnalyzer);
        return;
      }
      var painPoints := parsed.value;
      AssignNextStage([companyInfo], PainPoints, painPoints, [companyInfo, painPoints]);
      combined := Put(combined, PainPoints, painPoints);

      // Stage 3: industry challenges; an unusable reply is replaced by a placeholder.
      var challengesRequest := ChallengesRequest(companyInfo, painPoints);
      requests := requests + [challengesRequest];
      assert requests == [infoRequest, painRequest, challengesRequest];
      reply := run(challengesRequest);
      if reply.Raises? {
        exit := Caught(Stage(IndustryChallengesIdentifier));
        break try;
      }
      parsed := extract(reply.value);
      var challenges := if Usable(parsed) then parsed.value else ParseFailed;
      AssignNextStage([companyInfo, painPoints], IndustryChallenges, challenges,
                      [companyInfo, painPoints, challenges]);
      combined := Put(combined, IndustryChallenges, challenges);

      // The selling company, read from the operator.
      if sellingCompany.Raises? {
        exit := Caught(SellingCompanyPrompt);
        break try;
      }
      var seller := String(sellingCompany.value);
      AssignNextStage([companyInfo, painPoints, challenges], SellingCompany, seller,
                      [companyInfo, painPoints, challenges, seller]);
      combined := Put(combined, SellingCompany, seller);

      // Stage 4: solutions, given everything gathered so far.
      var solutionsRequest := SolutionsRequest(combined, sellingCompany.value);
      requests := requests + [solutionsRequest];
      assert requests == [infoRequest, painRequest, challengesRequest, solutionsRequest];
      reply := run(solutionsRequest);
      if reply.Raises? {
        exit := Caught(Stage(SolutionReporter));
        break try;
      }
      parsed := extract(reply.value);
      if !Usable(parsed) {
        exit := ReturnedAfter(SolutionReporter);
        return;
      }
      var solutions := parsed.value;
      AssignNextStage([companyInfo, painPoints, challenges, seller], Solutions, solutions,
                      [companyInfo, painPoints, challenges, seller, solutions]);
      combined := Put(combined, Solutions, solutions);
      saves := saves + [combined];
      assert saves == [combined];
    }
    // Reached after full success or a caught exception.
    saves := saves + [combined];
    assert saves == if exit == Completed then [combined, combined] else [combined];
  }

  /**
   * When the run ends, `combined_output` holds the results of the stages
   * completed so far, one per stage, each under its stage's key; after the
   * fourth agent's request it held the first four.
   */
  lemma StageResultsAtExit(url: Outcome<string>, sellingCompany: Outcome<string>,
      run: Request -> Outcome<string>, extract: string -> Option<Json>, t: Trace) returns (values: seq<Json>)
    requires t == Expected(url, sellingCompany, run, extract)
    ensures |values| == KeysAtExit(t.exit) && t.combined == StageEntries(values)
    ensures |t.requests| == 4 ==> t.requests[3] == SolutionsRequest(StageEntries(values[..4]), sellingCompany.value)
  {
    values := [];
    if url.Raises? || run(InfoRequest(url.value)).Raises? { return; }
    var companyInfo := extract(run(InfoRequest(url.value)).value);
    if !Usable(companyInfo) { return; }
    values := [companyInfo.value];
    var r2 := PainPointRequest(companyInfo.value);
    if run(r2).Raises? { return; }
    var painPoints := extract(run(r2).value);
    if !Usable(painPoints) { return; }
    values := [companyInfo.value, painPoints.value];
    var r3 := ChallengesRequest(companyInfo.value, painPoints.value);
    if run(r3).Raises? { return; }
    var challenges := extract(run(r3).value);
    var placed := if Usable(challenges) then challenges.value else ParseFailed;
    values := [companyInfo.value, painPoints.value, placed];
    if sellingCompany.Raises? { return; }
    values := [companyInfo.value, painPoints.value, placed, String(sellingCompany.value)];
    var r4 := SolutionsRequest(StageEntries(values), sellingCompany.value);
    if run(r4).Raises? { assert values[..4] == values; return; }
    var solutions := extract(run(r4).value);
    if !Usable(solutions) { assert values[..4] == values; return; }
    values := [companyInfo.value, painPoints.value, placed, String(sellingCompany.value), solutions.value];
    assert values[..4] == [companyInfo.value, painPoints.value, placed, String(sellingCompany.value)];
  }

  /**
   * Keys are only ever added, in stage order: when the run ends,
   * `combined_output` holds exactly the keys of the stages that completed,
   * and one agent has been called per stage begun.
   */
  lemma KeysFollowStageOrder(url: Outcome<string>, sellingCompany: Outcome<string>,
      run: Request -> Outcome<string>, extract: string -> Option<Json>, t: Trace)
    requires t == Expected(url, sellingCompany, run, extract)
    ensures |t.requests| == CallsAtExit(t.exit)
    ensures Keys(t.combined) == KeyOrder[..KeysAtExit(t.exit)]
  {
    var values := StageResultsAtExit(url, sellingCompany, run, extract, t);
    StageEntriesFollowKeyOrder(values);
  }

  /**
   * What `combined_output` holds under each key: the truthy results of the
   * first two agents, the third agent's truthy result or else the
   * placeholder, the selling company as typed, and the fourth agent's
   * truthy result.
   */
  lemma StoredValuesComeFromReplies(url: Outcome<string>, sellingCompany: Outcome<string>,
      run: Request -> Outcome<string>, extract: string -> Option<Json>, t: Trace)
    requires t == Expected(url, sellingCompany, run, extract)
    ensures |t.combined| >= 1 ==>
      |t.requests| >= 1
      && Decoded(run(t.requests[0]), extract) == Some(t.combined[0].1) && Truthy(t.combined[0].1)
    ensures |t.combined| >= 2 ==>
      |t.requests| >= 2
      && Decoded(run(t.requests[1]), extract) == Some(t.combined[1].1) && Truthy(t.combined[1].1)
    ensures |t.combined| >= 3 ==>
      |t.requests| >= 3
      && var challenges := Decoded(run(t.requests[2]), extract);
      t.combined[2].1 == if Usable(challenges) then challenges.value else ParseFailed
    ensures |t.combined| >= 4 ==>
      sellingCompany.Returned? && t.combined[3].1 == String(sellingCompany.value)
    ensures |t.combined| == 5 ==>
      |t.requests| == 4
      && Decoded(run(t.requests[3]), extract) == Some(t.combined[4].1) && Truthy(t.combined[4].1)
  {
  }

  /**
   * Of the exceptions `except Exception` catches, only the URL prompt's
   * escapes `main`, since that prompt alone sits outside the `try`; a
   * `return` writes nothing, a caught exception writes the document once,
   * and a complete run writes it twice.
   */
  lemma SavesFollowExit(url: Outcome<string>, sellingCompany: Outcome<string>,
      run: Request -> Outcome<string>, extract: string -> Option<Json>, t: Trace)
    requires t == Expected(url, sellingCompany, run, extract)
    ensures t.exit == UrlPromptRaised <==> url.Raises?
    ensures url.Raises? ==> t.combined == [] && t.requests == []
    ensures t.saves == SavesAtExit(t.exit, t.combined)
  {
  }

  /**
   * The agents are called in pipeline order; each call after the first
   * follows a call that returned, and a usable result except at the third
   * stage.
   */
  lemma AgentsRunInOrder(url: Outcome<string>, sellingCompany: Outcome<string>,
      run: Request -> Outcome<string>, extract: string -> Option<Json>, t: Trace)
    requires t == Expected(url, sellingCompany, run, extract)
    ensures forall i | 0 <= i < |t.requests| :: t.requests[i].agent == AgentOrder[i]
    ensures forall i | 0 <= i < |t.requests| - 1 :: run(t.requests[i]).Returned?
    ensures forall i | 0 <= i < |t.requests| - 1 && i != 2 :: Usable(Decoded(run(t.requests[i]), extract))
  {
  }

  /**
   * Each agent is sent the results gathered before it: the second the
   * company profile, the third the profile and the pain points, the fourth
   * `combined_output` as it stands with its first four keys.
   */
  lemma RequestsCarryEarlierResults(url: Outcome<string>, sellingCompany: Outcome<string>,
      run: Request -> Outcome<string>, extract: string -> Option<Json>, t: Trace)
    requires t == Expected(url, sellingCompany, run, extract)
    ensures |t.requests| >= 1 ==> url.Returned? && t.requests[0] == InfoRequest(url.value)
    ensures |t.requests| >= 2 ==>
      |t.combined| >= 1 && t.requests[1] == PainPointRequest(t.combined[0].1)
    ensures |t.requests| >= 3 ==>
      |t.combined| >= 2 && t.requests[2] == ChallengesRequest(t.combined[0].1, t.combined[1].1)
    ensures |t.requests| == 4 ==>
      |t.combined| >= 4 && sellingCompany.Returned?
      && t.requests[3] == SolutionsRequest(t.combined[..4], sellingCompany.value)
      && Keys(t.combined[..4]) == KeyOrder[..4]
  {
    var values := StageResultsAtExit(url, sellingCompany, run, extract, t);
    if |t.requests| == 4 {
      StageEntriesPrefix(values, 4);
      StageEntriesFollowKeyOrder(values[..4]);
    }
  }

  /**
   * A falsy result at the first, second or fourth stage makes `main`
   * return at once: no later agent runs, `combined_output` keeps only the
   * keys of the earlier stages, and nothing is written.
   */
  lemma FalsyResultReturnsWithoutSaving(url: Outcome<string>, sellingCompany: Outcome<string>,
      run: Request -> Outcome<string>, extract: string -> Option<Json>, t: Trace, i: nat)
    requires t == Expected(url, sellingCompany, run, extract)
    requires i < |t.requests| && i != 2
    requires run(t.requests[i]).Returned? && !Usable(extract(run(t.requests[i]).value))
    ensures t.exit == ReturnedAfter(AgentOrder[i]) && |t.requests| == i + 1
    ensures Keys(t.combined) == KeyOrder[..KeysBefore(Stage(AgentOrder[i]))]
    ensures t.saves == []
  {
    KeysFollowStageOrder(url, sellingCompany, run, extract, t);
  }

  /**
   * A falsy result at the third stage is tolerated: the placeholder is
   * stored and the run goes on to the selling-company prompt and, once
   * that is answered, to the fourth agent.
   */
  lemma FalsyChallengesAreTolerated(url: Outcome<string>, sellingCompany: Outcome<string>,
      run: Request -> Outcome<string>, extract: string -> Option<Json>, t: Trace)
    requires t == Expected(url, sellingCompany, run, extract)
    requires |t.requests| >= 3
    requires run(t.requests[2]).Returned? && !Usable(extract(run(t.requests[2]).value))
    ensures |t.combined| >= 3 && t.combined[2] == (IndustryChallenges, ParseFailed)
    ensures sellingCompany.Raises? ==> t.exit == Caught(SellingCompanyPrompt)
    ensures sellingCompany.Returned? ==> |t.requests| == 4
  {
    KeysFollowStageOrder(url, sellingCompany, run, extract, t);
    StoredValuesComeFromReplies(url, sellingCompany, run, extract, t);
  }

  /**
   * An exception raised by an agent call is caught: no later agent runs and
   * the document gathered so far is written exactly once.
   */
  lemma RaisingCallSavesOnce(url: Outcome<string>, sellingCompany: Outcome<string>,
      run: Request -> Outcome<string>, extract: string -> Option<Json>, t: Trace, i: nat)
    requires t == Expected(url, sellingCompany, run, extract)
    requires i < |t.requests| && run(t.requests[i]).Raises?
    ensures t.exit == Caught(Stage(AgentOrder[i])) && |t.requests| == i + 1
    ensures Keys(t.combined) == KeyOrder[..KeysBefore(Stage(AgentOrder[i]))]
    ensures t.saves == [t.combined]
  {
    KeysFollowStageOrder(url, sellingCompany, run, extract, t);
  }

  /**
   * An exception from the selling-company prompt is caught after the third
   * stage: the three stage results are written exactly once.
   */
  lemma RaisingSellingPromptSavesOnce(url: Outcome<string>, sellingCompany: Outcome<string>,
      run: Request -> Outcome<string>, extract: string -> Option<Json>, t: Trace)
    requires t == Expected(url, sellingCompany, run, extract)
    requires |t.requests| >= 3 && run(t.requests[2]).Returned? && sellingCompany.Raises?
    ensures t.exit == Caught(SellingCompanyPrompt) && |t.requests| == 3
    ensures Keys(t.combined) == KeyOrder[..3]
    ensures t.saves == [t.combined]
  {
    KeysFollowStageOrder(url, sellingCompany, run, extract, t);
  }

  /** A truthy fourth result completes the run: the full document is written twice. */
  lemma SuccessSavesCompleteDocumentTwice(url: Outcome<string>, sellingCompany: Outcome<string>,
      run: Request -> Outcome<string>, extract: string -> Option<Json>, t: Trace)
    requires t == Expected(url, sellingCompany, run, extract)
    requires |t.requests| == 4 && run(t.requests[3]).Returned? && Usable(extract(run(t.requests[3]).value))
    ensures t.exit == Completed
    ensures Keys(t.combined) == KeyOrder
    ensures t.saves == [t.combined, t.combined]
  {
    KeysFollowStageOrder(url, sellingCompany, run, extract, t);
  }

  /**
   * With the extractor of main.py, a reply that wraps one object without
   * "```" in prose or fences free of `{` before it and `}` after it yields
   * that object's decoding.
   */
  lemma MainExtractorFindsEmbeddedObject(parse: string -> Option<Json>, pre: string, obj: string, post: string)
    requires |obj| >= 2 && obj[0] == '{' && obj[|obj| - 1] == '}' && !Text.Occurs(obj, Extractor.Fence)
    requires '{' !in pre && '}' !in post
    ensures MainExtractor(parse)(pre + obj + post) == parse(obj)
  {
    Extractor.ExtractsEmbeddedObject(pre, obj, post, parse);
  }

  /**
   * With the extractor of main.py, a first reply without any `{` ends the
   * run at once: only the first agent is called and nothing is written.
   */
  lemma BracelessFirstReplyEndsRun(url: Outcome<string>, sellingCompany: Outcome<string>,
      run: Request -> Outcome<string>, parse: string -> Option<Json>)
    requires url.Returned? && run(InfoRequest(url.value)).Returned?
    requires '{' !in run(InfoRequest(url.value)).value
    ensures var t := Expected(url, sellingCompany, run, MainExtractor(parse));
      t.exit == ReturnedAfter(InfoExtractor) && t.combined == []
      && t.saves == [] && t.requests == [InfoRequest(url.value)]
  {
    Extractor.NoOpeningBraceYieldsNone(run(InfoRequest(url.value)).value, parse);
  }

  /**
   * With the extractor of main.py, agents that all reply with the same
   * object wrapped in prose or fences, decoding to a truthy value, complete
   * the run: every stage stores that value, the selling company is stored
   * as typed, and the complete document is written twice.
   */
  lemma WrappedRepliesCompleteRun(url: Outcome<string>, sellingCompany: Outcome<string>,
      run: Request -> Outcome<string>, parse: string -> Option<Json>,
      pre: string, obj: string, post: string, v: Json)
    requires url.Returned? && sellingCompany.Returned?
    requires forall r :: run(r) == Returned(pre + obj + post)
    requires |obj| >= 2 && obj[0] == '{' && obj[|obj| - 1] == '}' && !Text.Occurs(obj, Extractor.Fence)
    requires '{' !in pre && '}' !in post
    requires parse(obj) == Some(v) && Truthy(v)
    ensures var t := Expected(url, sellingCompany, run, MainExtractor(parse));
      t.exit == Completed && t.saves == [t.combined, t.combined]
      && t.combined == StageEntries([v, v, v, String(sellingCompany.value), v])
  {
    Extractor.ExtractsEmbeddedObject(pre, obj, post, parse);
  }
}

=== FILE: text.dfy ===
/**
 * The Python string operations `clean_and_parse_json` relies on:
 * `str.replace`, `str.strip` and single-character search.
 */
module Text {
  import opened Wrappers

  /** Python's `str.isspace`: the 29 code points `strip()` removes by default. */
  predicate IsSpace(c: char) {
    ('\U{9}' <= c <= '\U{D}') || ('\U{1C}' <= c <= '\U{20}')
    || c == '\U{85}' || c == '\U{A0}' || c == '\U{1680}'
    || ('\U{2000}' <= c <= '\U{200A}') || c == '\U{2028}' || c == '\U{2029}'
    || c == '\U{202F}' || c == '\U{205F}' || c == '\U{3000}'
  }

  /** `pat` occurs in `s` starting at index `i`. */
  predicate OccursAt(s: string, pat: string, i: nat) {
    i + |pat| <= |s| && s[i..i + |pat|] == pat
  }

  predicate Occurs(s: string, pat: string) {
    exists i: nat | i <= |s| :: OccursAt(s, pat, i)
  }

  /**
   * `s.replace(pat, rep)`: scan left to right, replace each occurrence of
   * `pat` and continue after it, so occurrences never overlap.
   */
  function ReplaceAll(s: string, pat: string, rep: string): string
    requires pat != []
    decreases |s|
  {
    if |s| < |pat| then s
    else if s[..|pat|] == pat then rep + ReplaceAll(s[|pat|..], pat, rep)
    else [s[0]] + ReplaceAll(s[1..], pat, rep)
  }

  /** A string that does not start with the first character of `pat` keeps its head. */
  lemma ReplaceKeepsHead(s: string, pat: string, rep: string)
    requires pat != [] && s != [] && s[0] != pat[0]
    ensures ReplaceAll(s, pat, rep) != [] && ReplaceAll(s, pat, rep)[0] == s[0]
  {
  }

  /** Deleting occurrences never introduces a character that was not there. */
  lemma {:induction false} ReplaceDeletesOnly(s: string, pat: string)
    requires pat != []
    ensures forall c :: c in ReplaceAll(s, pat, "") ==> c in s
    decreases |s|
  {
    if |s| < |pat| {
    } else if s[..|pat|] == pat {
      ReplaceDeletesOnly(s[|pat|..], pat);
    } else {
      ReplaceDeletesOnly(s[1..], pat);
    }
  }

  /** Where no occurrence starts, the first character is kept and the scan moves on by one. */
  lemma ReplaceStep(s: string, pat: string, rep: string)
    requires pat != [] && |s| >= |pat| && s[..|pat|] != pat
    ensures ReplaceAll(s, pat, rep) == [s[0]] + ReplaceAll(s[1..], pat, rep)
  {
  }

  /**
   * A prefix holding no occurrence of `pat` and ending with a character
   * foreign to `pat` passes through unchanged: no occurrence can start
   * inside it, since one reaching past its end would contain its last character.
   */
  lemma {:induction false} ReplaceSkipsPrefix(x: string, y: string, pat: string, rep: string)
    requires pat != [] && !Occurs(x, pat) && (x == [] || x[|x| - 1] !in pat)
    ensures ReplaceAll(x + y, pat, rep) == x + ReplaceAll(y, pat, rep)
    decreases |x|
  {
    if x == [] {
      assert x + y == y;
    } else if |x + y| < |pat| {
      assert ReplaceAll(y, pat, rep) == y;
    } else {
      var s := x + y;
      FreePrefixMissesFront(x, y, pat);
      ReplaceStep(s, pat, rep);
      assert s[1..] == x[1..] + y;
      FreeTail(x, pat);
      ReplaceSkipsPrefix(x[1..], y, pat, rep);
      assert x == [x[0]] + x[1..];
    }
  }

  /** `ReplaceSkipsPrefix`: no occurrence starts at the front of `x + y`. */
  lemma FreePrefixMissesFront(x: string, y: string, pat: string)
    requires pat != [] && x != [] && !Occurs(x, pat) && x[|x| - 1] !in pat && |x + y| >= |pat|
    ensures (x + y)[..|pat|] != pat
  {
    var s := x + y;
    if |x| >= |pat| {
      assert s[..|pat|] == x[..|pat|] && !OccursAt(x, pat, 0);
    } else {
      assert s[..|pat|][|x| - 1] == x[|x| - 1];
    }
  }

  /** Dropping the first character keeps a string free of `pat` and keeps its last character. */
  lemma FreeTail(x: string, pat: string)
    requires pat != [] && x != [] && !Occurs(x, pat)
    ensures !Occurs(x[1..], pat)
    ensures x[1..] == [] || x[1..][|x[1..]| - 1] == x[|x| - 1]
  {
    InfixAvoids(x, pat, 1, |x|);
    assert x[1..|x|] == x[1..];
  }

  /**
   * When the second part starts with a character foreign to `pat`, no
   * occurrence straddles the boundary, so the parts are replaced independently.
   */
  lemma {:induction false} ReplaceSplits(x: string, y: string, pat: string, rep: string)
    requires pat != [] && y != [] && y[0] !in pat
    ensures ReplaceAll(x + y, pat, rep) == ReplaceAll(x, pat, rep) + ReplaceAll(y, pat, rep)
    decreases |x|, 1
  {
    if x == [] {
      assert x + y == y;
    } else if |x + y| < |pat| {
      assert ReplaceAll(x, pat, rep) == x && ReplaceAll(y, pat, rep) == y;
    } else if |x| < |pat| || x[..|pat|] != pat {
      SplitsAfterMiss(x, y, pat, rep);
    } else {
      SplitsAfterHit(x, y, pat, rep);
    }
  }

  /** `ReplaceSplits` when no occurrence starts at the front of `x + y`. */
  lemma {:induction false} SplitsAfterMiss(x: string, y: string, pat: string, rep: string)
    requires pat != [] && y != [] && y[0] !in pat
    requires x != [] && |x + y| >= |pat| && (|x| < |pat| || x[..|pat|] != pat)
    ensures ReplaceAll(x + y, pat, rep) == ReplaceAll(x, pat, rep) + ReplaceAll(y, pat, rep)
    decreases |x|, 0
  {
    var s := x + y;
    if |x| < |pat| {
      // A window at the front would cover `y[0]`, which `pat` does not contain.
      assert s[..|pat|][|x|] == y[0];
    } else {
      assert s[..|pat|] == x[..|pat|];
    }
    ReplaceStep(s, pat, rep);
    assert s[1..] == x[1..] + y;
    ReplaceSplits(x[1..], y, pat, rep);
    if |x| >= |pat| {
      ReplaceStep(x, pat, rep);
    } else {
      assert x == [x[0]] + x[1..];
    }
  }

  /** `ReplaceSplits` when `x` starts with an occurrence. */
  lemma {:induction false} SplitsAfterHit(x: string, y: string, pat: string, rep: string)
    requires pat != [] && y != [] && y[0] !in pat
    requires |x| >= |pat| && x[..|pat|] == pat
    ensures ReplaceAll(x + y, pat, rep) == ReplaceAll(x, pat, rep) + ReplaceAll(y, pat, rep)
    decreases |x|, 0
  {
    var s := x + y;
    assert s[..|pat|] == x[..|pat|];
    assert s[|pat|..] == x[|pat|..] + y;
    ReplaceSplits(x[|pat|..], y, pat, rep);
  }

  /** Length of the run of whitespace at the front of `s`. */
  function LeadingSpaces(s: string): (n: nat)
    ensures n <= |s|
    ensures forall k :: 0 <= k < n ==> IsSpace(s[k])
    ensures n < |s| ==> !IsSpace(s[n])
    decreases |s|
  {
    if s != [] && IsSpace(s[0]) then 1 + LeadingSpaces(s[1..]) else 0
  }

  /** Length of the run of whitespace at the back of `s`. */
  function TrailingSpaces(s: string): (n: nat)
    ensures n <= |s|
    ensures forall k :: |s| - n <= k < |s| ==> IsSpace(s[k])
    ensures n < |s| ==> !IsSpace(s[|s| - 1 - n])
    decreases |s|
  {
    if s != [] && IsSpace(s[|s| - 1]) then 1 + TrailingSpaces(s[..|s| - 1]) else 0
  }

  /**
   * `s.strip()`: the longest infix of `s` that neither starts nor ends with
   * whitespace, obtained by removing only whitespace at both ends.
   */
  function Strip(s: string): (r: string)
    ensures var a := LeadingSpaces(s);
      a + |r| <= |s| && r == s[a..a + |r|]
      && (forall k :: a + |r| <= k < |s| ==> IsSpace(s[k]))
    ensures r == [] || (!IsSpace(r[0]) && !IsSpace(r[|r| - 1]))
  {
    var a := LeadingSpaces(s);
    var b := TrailingSpaces(s[a..]);
    TrailingSpacesOfSuffix(s, a);
    s[a..|s| - b]
  }

  /** The trailing whitespace of a suffix of `s` is trailing whitespace of `s`. */
  lemma TrailingSpacesOfSuffix(s: string, a: nat)
    requires a <= |s|
    ensures var b := TrailingSpaces(s[a..]);
      (forall k :: |s| - b <= k < |s| ==> IsSpace(s[k]))
      && (a < |s| - b ==> !IsSpace(s[|s| - b - 1]))
  {
    var t, b := s[a..], TrailingSpaces(s[a..]);
    forall k | |s| - b <= k < |s| ensures IsSpace(s[k]) {
      assert s[k] == t[k - a];
    }
    if a < |s| - b {
      assert s[|s| - b - 1] == t[|t| - 1 - b];
    }
  }

  /** Stripping never cuts into a stretch that starts and ends with non-whitespace. */
  lemma StripKeepsCore(s: string, lo: nat, hi: nat)
    requires lo < hi <= |s| && !IsSpace(s[lo]) && !IsSpace(s[hi - 1])
    ensures LeadingSpaces(s) <= lo && hi <= LeadingSpaces(s) + |Strip(s)|
  {
  }

  /** An infix of a string free of `pat` is free of `pat`. */
  lemma InfixAvoids(s: string, pat: string, a: nat, b: nat)
    requires a <= b <= |s| && !Occurs(s, pat)
    ensures !Occurs(s[a..b], pat)
  {
    forall i: nat | OccursAt(s[a..b], pat, i) ensures false {
      forall k | 0 <= k < |pat| ensures s[a + i + k] == pat[k] {
        assert s[a..b][i..i + |pat|][k] == pat[k];
      }
      assert s[a + i..a + i + |pat|] == pat;
      assert OccursAt(s, pat, a + i);
    }
  }

  /** Stripping keeps only characters of `s` and cannot create an occurrence of `pat`. */
  lemma StripAvoids(s: string, pat: string)
    requires !Occurs(s, pat)
    ensures !Occurs(Strip(s), pat)
    ensures forall c :: c in Strip(s) ==> c in s
  {
    var a := LeadingSpaces(s);
    InfixAvoids(s, pat, a, a + |Strip(s)|);
  }

  /** Index of the first `c` in `s` (`str.find`, with `None` for -1). */
  function FindFirst(s: string, c: char): (r: Option<nat>)
    ensures r.Some? ==>
      r.value < |s| && s[r.value] == c && forall k :: 0 <= k < r.value ==> s[k] != c
    ensures r.None? ==> forall k :: 0 <= k < |s| ==> s[k] != c
    decreases |s|
  {
    if s == [] then None
    else if s[0] == c then Some(0)
    else match FindFirst(s[1..], c)
      case None => None
      case Some(i) => Some(i + 1)
  }

  /** Index of the last `c` in `s` (`str.rfind`, with `None` for -1). */
  function FindLast(s: string, c: char): (r: Option<nat>)
    ensures r.Some? ==>
      r.value < |s| && s[r.value] == c && forall k :: r.value < k < |s| ==> s[k] != c
    ensures r.None? ==> forall k :: 0 <= k < |s| ==> s[k] != c
    decreases |s|
  {
    if s == [] then None
    else if s[|s| - 1] == c then Some(|s| - 1)
    else FindLast(s[..|s| - 1], c)
  }
}

=== FILE: wrappers.dfy ===
/** Python's `None`-or-value results, as used by the extractor. */
module Wrappers {
  datatype Option<+T> = None | Some(value: T)
}
